=== FILE: README.md ===
# QaliLab AI — verified model of the decision logic

QaliLab AI turns a Jira user story into test cases: a Flask application
builds a French prompt from the story, sends it to a text-generation
endpoint, and can write the result back into Jira as a new ticket, and
can post on an issue a comment linking to the panel; a browser extension adds a "QaliLab AI" button to Jira issue pages
that opens the application's panel for that issue.

Almost all of that is HTTP and DOM glue. This project models, in Dafny, the
pure decisions embedded in it, and proves what they promise:

- **Issue-type resolution** (`IssueTypes`): the type given to a created
  ticket — the explicit type when truthy, else the first of
  `Test, Story, Task, Bug, Sub-task` that the project offers, else `Story`.
  The offered types are an input (fetching them yields `[]` on any failure).
- **Prompt builder** (`Prompts`): `build_prompt` as a string template; the
  story is embedded verbatim and can be read back, the Gherkin wording is
  chosen exactly for the selector `"gherkin"`, and `français` exactly for
  `"fr"`.
- **Diagnostics** (`Diagnostics`): the masked credential view of
  `/check-env`, and the success/failure tally of
  `/add-links-to-user-stories` over the per-issue success flags.
- **Issue-key extraction** (`IssueKeys`): `getIssueKey`, the first match of
  `/\/browse\/([A-Z]+-\d+)/` in the page path, as a scanner proved equal to
  a reference definition of the leftmost occurrence, with the round trip
  through the `/browse/{key}` pages the application links to.
- **Links and extension actions** (`Links`, `Extension`): the panel link
  `https://qalilab-ai.onrender.com/jira-panel?issueKey=` + key and its
  inverse as a specification (removal of the prefix), the return URL to the issue page, and what the content script's
  button and toolbar action do for a given page.

Python's truthiness of an optional string is modelled by `Options.Truthy`
(`None` and `""` are falsy). Strings are sequences of Dafny characters
(Unicode scalar values). For the issue-key scanner this agrees with the
source's regular expression, which works on UTF-16 code units, because its
character classes are ASCII and a page path is percent-encoded ASCII.

## Model

| member | source | states |
|---|---|---|
| IssueTypes.ResolveIssueType | app.py:103-118 | A truthy explicit type is returned unchanged whatever the offered list; otherwise the result satisfies the reference choice (first preferred name offered, else "Story"), is always one of the preferred names, and is "Story" when nothing is offered |
| IssueTypes.FirstOffered | app.py:113-118 | The scan stops at the first preferred name present in the offered list, none before it is present, and it reports nothing exactly when no preferred name is present |
| IssueTypes.ChosenByPreferenceUnique | app.py:114-118 | The preference rule picks exactly one name, so the resolution is fully determined by its contract |
| IssueTypes.ResolveMatchesPreference | app.py:104-118 | Without an explicit type, the resolved name equals a given name if and only if the reference preference rule selects that name |
| IssueTypes.EmptyGuardRedundant | app.py:109-112 | Scanning the preferences over an empty list finds nothing, so the `if issue_types:` guard does not change the outcome |
| IssueTypes.NonPreferredTypeIgnored | app.py:114-117 | Offering an extra type that is not a preferred name never changes the chosen type |
| IssueTypes.ResolveExamples | app.py:104-118 | ["Bug","Task"] gives "Task", [] gives "Story", an empty explicit type is ignored, "Test" wins over later names, a truthy explicit type wins |
| Prompts.LanguageWord | app.py:40 | The language word is "français" if and only if the selector is "fr", and "anglais" for every other value |
| Prompts.BuildPrompt | app.py:38-53 | The prompt starts with the opening words, the story verbatim and the closing quote and newline, and ends with the instruction for the selectors |
| Prompts.RequestsDiffer | app.py:45-52 | The Gherkin and the actions wordings end with different characters, so neither prompt shape can be mistaken for the other |
| Prompts.StoryRoundTrip | app.py:43-53 | The story can be read back unchanged from the prompt built from it |
| Prompts.ExtractThenBuild | app.py:43-53 | Any string of prompt shape is the prompt of the story read back from it |
| Prompts.BuildPromptInjective | app.py:43-53 | Different stories give different prompts for the same selectors |
| Prompts.GherkinExactly | app.py:42-53 | The prompt ends with the Given/When/Then wording if and only if the format is exactly "gherkin", and with the actions wording otherwise |
| Prompts.LanguageExactly | app.py:40-53 | The prompt ends with " en français." if and only if the language is "fr", and with " en anglais." otherwise |
| Diagnostics.MaskEmail | app.py:272 | A value is shown exactly when the e-mail is truthy; it is at most the e-mail's first three characters followed by "***" |
| Diagnostics.MaskToken | app.py:273 | A value is shown exactly when the token is truthy, and it is always "***" |
| Diagnostics.CheckEnv | app.py:268-276 | Base URL and project key are shown unchanged, the e-mail reduced to a prefix of at most three characters plus "***", the token replaced by "***" |
| Diagnostics.CheckEnvHidesSecrets | app.py:270-275 | Two configurations that agree on the first three e-mail characters and on whether a token is set produce the same view |
| Diagnostics.ShortEmailShownInFull | app.py:272 | An e-mail of one to three characters is shown in full before the stars |
| Diagnostics.TallyLinks | app.py:320-321 | `successful` is the number of true flags, `failed` the number of false flags, and together they are the number of results |
| Diagnostics.SummarizeLinking | app.py:304-327 | No count is reported exactly when no story was found; otherwise the counts are those of the true and false flags and add up to the number of stories |
| IssueKeys.RunEnd | qalilab-jira-extension/content.js:5 | The end of the maximal run of letters or digits from a position: every character before it is in the class and the character at it is not |
| IssueKeys.MatchAt | qalilab-jira-extension/content.js:5 | What the scanner finds at a position is an occurrence of "/browse/", upper-case letters, "-", digits not continued by a digit |
| IssueKeys.MatchAtComplete | qalilab-jira-extension/content.js:5 | Every occurrence at a position is what the scanner finds there, so at most one key occurs at a position |
| IssueKeys.FindFrom | qalilab-jira-extension/content.js:5 | The search returns the first position from which the scanner matches, and finds nothing only when no position matches |
| IssueKeys.GetIssueKey | qalilab-jira-extension/content.js:4-7 | The result is absent if and only if no key occurs in the path; otherwise it is the text of a well-formed key occurring leftmost after "/browse/" |
| IssueKeys.LeftmostUnique | qalilab-jira-extension/content.js:5-6 | The leftmost occurrence is unique in position and key |
| IssueKeys.GetIssueKeyLeftmost | qalilab-jira-extension/content.js:5-6 | Whenever a key occurs leftmost in the path, that key is the result |
| IssueKeys.BrowsePathYieldsKey | qalilab-jira-extension/content.js:5 | "/browse/" + a well-formed key + anything not starting with a digit yields that key |
| IssueKeys.BrowsePathRoundTrip | app.py:227 | Reading the key back from "/browse/{s}" gives s if and only if s is a well-formed key |
| IssueKeys.TrailingIgnoredExample | qalilab-jira-extension/content.js:5 | "/browse/ABC-123x" yields "ABC-123" |
| IssueKeys.LowerCaseExample | qalilab-jira-extension/content.js:5 | "/browse/abc-1" yields nothing: the letter class is upper-case only |
| Links.PanelLink | qalilab-jira-extension/content.js:27 | The panel link is the fixed prefix followed by the key, unchanged |
| Links.PanelLinkRoundTrip | qalilab-jira-extension/content.js:55 | Removing the fixed prefix from a panel link gives the key it was built from: the concatenation loses nothing |
| Links.ParsedPanelLinkRebuilds | app.py:76 | Every URL that starts with the panel prefix is the link built for what follows the prefix |
| Links.PanelLinkInjective | qalilab-jira-extension/content.js:27 | Different keys give different panel links |
| Links.ReturnUrl | app.py:227 | The return URL is exactly "https://", then the base URL, then the issue's "/browse/{key}" path with nothing in between |
| Links.ReturnUrlRoundTrip | app.py:227 | For a well-formed key, the path part of the return URL is a page from which the extension reads back exactly that key |
| Extension.ButtonTarget | qalilab-jira-extension/content.js:10-27 | A button is added exactly on an issue page without the button, and it points at the panel of the page's key |
| Extension.OpenQaliLab | qalilab-jira-extension/content.js:52-59 | A tab is opened exactly when the page has a key, on the panel of that key; otherwise the alert text is shown and no key occurs in the path |
| Extension.ButtonOnce | qalilab-jira-extension/content.js:72-77 | With the button present nothing more is added, and a button inserted on a page targets the same panel as the toolbar action on that page |
| Extension.PanelCycle | qalilab-jira-extension/content.js:55 | On the issue page "/browse/{key}" that the panel returns to, both the button and the toolbar action open the panel of the same key |

## Left out

- HTTP calls: `generate_response`, `get_issue_types`, `add_comment_button_to_issue`, the ticket creation request and the story search. They talk to Jira and to the text-generation endpoint; the types list and the per-issue success flags they produce are inputs of the model.
- Flask routing, templates, redirects and `url_for`, the `index` form handling, and `check_app_status`. These are web plumbing with no decision beyond passing values on.
- Reading the environment and the descriptor file, and serving the descriptor. This is file and process I/O.
- The `/installed` and `/uninstalled` callbacks. They only print and acknowledge, and keep no state.
- The text of the tally message and of the HTTP error bodies. They are display strings around the counts, which are modelled.
- The ticket payload of `create_jira_ticket` (project, summary, description, type). Only the type choice in it is a decision.
- Extension.ButtonOnce: the link of a button that already exists is not part of the page state. The content script never refreshes it after in-page navigation (content.js creates the button only when none exists, lines 23 and 75), so after moving from one issue page to another a surviving button keeps the first issue's panel while the toolbar action opens the second's; the model does not represent that stale link.
- Prompts.BuildPrompt: the Python default `language_choice="fr"` is a parameter here (its value is `Prompts.DefaultLanguage`); every caller in app.py (lines 353 and 363) passes the language explicitly.
- DOM work of the content script: where the button is placed, its icon and title, the MutationObserver wiring and Chrome messaging. The page is given as its path plus whether the button exists.
- Extraction of `window.location.pathname` from a URL and percent-encoding of paths. The browser does these; the model takes the path as given and builds links by plain concatenation, as the source does.
- Links.ParsePanelLink: reading the key back is modelled as plain removal of the panel prefix, the inverse of `PanelLink`. The server reads the key with `request.args.get("issueKey", "")` (app.py:219), which percent-decodes, turns `+` into a space and stops at `&` or `#`. That query-string decoding is not modelled. The two agree for well-formed keys, which contain none of those characters. They need not agree for the arbitrary route segment from which app.py:76 builds a link.
- The sampling temperature and token budget of the generation payload. They are only forwarded.
- Tenant state and token verification. The modelled code keeps no tenant state and does not authenticate its install and uninstall callbacks (app.py:238-248), so there is nothing of this kind to model.
- IssueTypes.ResolveIssueType: the explicit type is modelled as an optional string. In the source it is any JSON value (`data.get("issueType")`, app.py:189). A truthy non-string value (a number, `true`, a list) is forwarded unchanged, and a falsy one (`0`, `false`, `[]`) acts like `None`; neither case is representable here.

## Notes

- Resolution without an explicit type does not depend on the `if issue_types:` guard: an empty list contains no preferred name, so the default "Story" results either way (`IssueTypes.EmptyGuardRedundant`).

=== FILE: diagnostics.dfy ===
/** The diagnostic computations of app.py: the masked view of the tracker
    credentials (`check_env`, lines 267-276) and the success/failure count of
    a batch of comment insertions (`add_links_to_user_stories`,
    lines 304-327). */
module Diagnostics {
  import opened Options
  import opened Strings

  /** Number of leading characters of the account e-mail left visible. */
  const VisibleEmailChars: nat := 3
  /** What replaces a hidden secret. */
  const Stars: string := "***"

  /** The tracker configuration read from the environment. The base URL and
      the project key have defaults, so they are always strings; the e-mail
      and the API token may be unset. */
  datatype TrackerConfig = TrackerConfig(
    baseUrl: string,
    email: Option<string>,
    apiToken: Option<string>,
    projectKey: string)

  /** The JSON object returned by the diagnostic route. */
  datatype EnvStatus = EnvStatus(
    baseUrl: string,
    email: Option<string>,
    apiToken: Option<string>,
    projectKey: string)

  function Min(a: nat, b: nat): nat { if a <= b then a else b }

  /** `email[:3] + "***"` when the e-mail is truthy, else `None`. Python's
      slice stops at the end of a shorter string. */
  function MaskEmail(email: Option<string>): (r: Option<string>)
    ensures r.Some? <==> Truthy(email)
    ensures r.Some? ==> EndsWith(r.value, Stars)
    ensures r.Some? ==> |r.value| == Min(VisibleEmailChars, |email.value|) + |Stars|
    ensures r.Some? ==> StartsWith(email.value, r.value[..|r.value| - |Stars|])
  {
    if Truthy(email) then
      Some(email.value[..Min(VisibleEmailChars, |email.value|)] + Stars)
    else None
  }

  /** `"***"` when the token is truthy, else `None`. */
  function MaskToken(token: Option<string>): (r: Option<string>)
    ensures r.Some? <==> Truthy(token)
    ensures r.Some? ==> r.value == Stars
  {
    if Truthy(token) then Some(Stars) else None
  }

  /** The diagnostic view: base URL and project key in clear, the e-mail
      reduced to its first three characters, the token hidden entirely. */
  function CheckEnv(config: TrackerConfig): (status: EnvStatus)
    ensures status.baseUrl == config.baseUrl && status.projectKey == config.projectKey
    ensures status.email.Some? <==> Truthy(config.email)
    ensures status.email.Some? ==>
              && |Stars| <= |status.email.value| <= VisibleEmailChars + |Stars|
              && StartsWith(config.email.value, status.email.value[..|status.email.value| - |Stars|])
    ensures status.email.Some? ==>
              && EndsWith(status.email.value, Stars)
              && |status.email.value| == Min(VisibleEmailChars, |config.email.value|) + |Stars|
    ensures status.apiToken.Some? <==> Truthy(config.apiToken)
    ensures status.apiToken.Some? ==> status.apiToken.value == Stars
  {
    EnvStatus(config.baseUrl, MaskEmail(config.email), MaskToken(config.apiToken), config.projectKey)
  }

  /** The view depends on the e-mail only through its first three
      characters, and on the token only through whether it is set. */
  lemma CheckEnvHidesSecrets(c1: TrackerConfig, c2: TrackerConfig)
    requires c1.baseUrl == c2.baseUrl && c1.projectKey == c2.projectKey
    requires Truthy(c1.email) <==> Truthy(c2.email)
    requires Truthy(c1.email) ==>
               c1.email.value[..Min(VisibleEmailChars, |c1.email.value|)]
               == c2.email.value[..Min(VisibleEmailChars, |c2.email.value|)]
    requires Truthy(c1.apiToken) <==> Truthy(c2.apiToken)
    ensures CheckEnv(c1) == CheckEnv(c2)
  {
  }

  /** An e-mail of at most three characters is shown in full. */
  lemma ShortEmailShownInFull(email: string)
    requires 0 < |email| <= VisibleEmailChars
    ensures MaskEmail(Some(email)) == Some(email + Stars)
  {
    assert email[..Min(VisibleEmailChars, |email|)] == email;
  }

  /** Outcome of adding the panel link to every story of the project. */
  datatype LinkReport =
    | NoUserStories
    | Processed(successful: nat, failed: nat)

  /** `successful = sum(1 for r in results if r["success"])` and
      `failed = len(results) - successful`, over the success flags of the
      per-issue results. */
  method TallyLinks(results: seq<bool>) returns (successful: nat, failed: nat)
    ensures successful == multiset(results)[true]
    ensures failed == multiset(results)[false]
    ensures successful + failed == |results|
  {
    successful := 0;
    var i := 0;
    while i < |results|
      invariant i <= |results|
      invariant successful == multiset(results[..i])[true]
      invariant successful <= i
      invariant i - successful == multiset(results[..i])[false]
    {
      assert results[..i + 1] == results[..i] + [results[i]];
      if results[i] {
        successful := successful + 1;
      }
      i := i + 1;
    }
    assert results[..i] == results;
    failed := |results| - successful;
  }

  /** The route's outcome for the success flags of the processed stories:
      nothing is counted when the search found no story. */
  method SummarizeLinking(results: seq<bool>) returns (report: LinkReport)
    ensures report.NoUserStories? <==> results == []
    ensures report.Processed? ==>
              && report.successful == multiset(results)[true]
              && report.failed == multiset(results)[false]
              && report.successful + report.failed == |results|
  {
    if results == [] {
      return NoUserStories;
    }
    var successful, failed := TallyLinks(results);
    report := Processed(successful, failed);
  }
}

=== FILE: extension.dfy ===
/** Decisions of the browser extension's content script
    (qalilab-jira-extension/content.js): whether to add the panel button and
    where it points (`addQaliLabButton`, lines 10-49), and what the toolbar
    action does (`openQaliLab`, lines 52-59). The page is represented by its
    path and by whether the button is already in the document. */
module Extension {
  import opened Options
  import opened IssueKeys
  import opened Links

  /** The alert shown when the page is not an issue page. */
  const NotAnIssuePage: string :=
    "Veuillez naviguer vers une page de ticket Jira pour utiliser cet outil."

  /** What the toolbar action does. */
  datatype Action = OpenTab(url: string) | Alert(message: string)

  /** `addQaliLabButton`: the target of the button to insert, or `None` when
      nothing is inserted (not an issue page, or the button already there).
      Where the button goes in the page is not modelled. */
  function ButtonTarget(path: string, buttonPresent: bool): (r: Option<string>)
    ensures r.Some? <==> GetIssueKey(path).Some? && !buttonPresent
    ensures r.Some? ==> ParsePanelLink(r.value) == GetIssueKey(path)
  {
    match GetIssueKey(path)
    case None => None
    case Some(issueKey) =>
      if buttonPresent then None
      else
        PanelLinkRoundTrip(issueKey);
        Some(PanelLink(issueKey))
  }

  /** `openQaliLab`: open the panel of the page's issue in a new tab, or
      tell the user to go to an issue page. */
  function OpenQaliLab(path: string): (a: Action)
    ensures a.OpenTab? <==> GetIssueKey(path).Some?
    ensures a.OpenTab? ==> ParsePanelLink(a.url) == GetIssueKey(path)
    ensures a.Alert? ==> a.message == NotAnIssuePage && NoOccurrence(path)
  {
    match GetIssueKey(path)
    case None => Alert(NotAnIssuePage)
    case Some(issueKey) =>
      PanelLinkRoundTrip(issueKey);
      OpenTab(PanelLink(issueKey))
  }

  /** Inserting the button is done once: with the button in place, a new
      check (the mutation observer, lines 72-78) inserts nothing, and a
      button inserted on a page targets the same panel as the toolbar action
      on that page. */
  lemma ButtonOnce(path: string)
    ensures ButtonTarget(path, true) == None
    ensures ButtonTarget(path, false).Some? ==>
              OpenQaliLab(path) == OpenTab(ButtonTarget(path, false).value)
  {
  }

  /** The full cycle: the panel sends the user back to `/browse/{key}`, and
      the extension on that page links to the panel of the same key. */
  lemma PanelCycle(key: IssueKey)
    requires key.Valid()
    ensures OpenQaliLab(BrowsePath(key.ToString())) == OpenTab(PanelLink(key.ToString()))
    ensures ButtonTarget(BrowsePath(key.ToString()), false) == Some(PanelLink(key.ToString()))
  {
    BrowsePathYieldsKey(key, []);
    assert BrowsePath(key.ToString()) + [] == BrowsePath(key.ToString());
  }
}

=== FILE: issue_keys.dfy ===
/** Extraction of an issue key from a page path by the browser extension
    (qalilab-jira-extension/content.js, `getIssueKey`, lines 4-7): the first
    match of the regular expression `/\/browse\/([A-Z]+-\d+)/`, written here
    as a scanner. `[A-Z]` and `\d` are ASCII classes; as `-` is not an
    upper-case letter and nothing follows `\d+` in the pattern, the letters
    and the digits of a match are both maximal runs, so backtracking never
    changes the outcome. */
module IssueKeys {
  import opened Options

  /** The path segment that introduces an issue key. */
  const BrowseMarker: string := "/browse/"

  predicate IsUpper(c: char) { 'A' <= c <= 'Z' }
  predicate IsDigit(c: char) { '0' <= c <= '9' }

  /** The two character classes of the pattern. */
  datatype CharClass = Upper | Digit

  predicate InClass(c: char, cls: CharClass)
  {
    match cls
    case Upper => IsUpper(c)
    case Digit => IsDigit(c)
  }

  predicate AllIn(s: string, cls: CharClass)
  {
    forall k :: 0 <= k < |s| ==> InClass(s[k], cls)
  }

  /** An issue key `PROJECT-NUMBER`, held by its two parts. */
  datatype IssueKey = IssueKey(project: string, number: string)
  {
    /** Upper-case letters, a dash, digits; neither part empty. */
    predicate Valid()
    {
      |project| > 0 && |number| > 0 && AllIn(project, Upper) && AllIn(number, Digit)
    }

    function ToString(): string
    {
      project + "-" + number
    }
  }

  /** `s` is the text of a well-formed issue key. */
  ghost predicate IsKeyText(s: string)
  {
    exists key: IssueKey :: key.Valid() && key.ToString() == s
  }

  /** The path of an issue page: `/browse/{key}`. */
  function BrowsePath(key: string): string
  {
    BrowseMarker + key
  }

  /** Reference definition of a match: at position `i` of `path` come
      `/browse/`, the project letters, a dash and the digits of `key`, and the
      digits are not continued by another digit. */
  ghost predicate OccursAt(path: string, i: int, key: IssueKey)
  {
    && 0 <= i
    && key.Valid()
    && var a := i + |BrowseMarker|;
       var b := a + |key.project|;
       var c := b + 1 + |key.number|;
       && c <= |path|
       && path[i..a] == BrowseMarker
       && path[a..b] == key.project
       && path[b] == '-'
       && path[b + 1..c] == key.number
       && (c == |path| || !IsDigit(path[c]))
  }

  /** `key` occurs at `i` and nothing occurs further left. */
  ghost predicate LeftmostAt(path: string, i: int, key: IssueKey)
  {
    OccursAt(path, i, key) && forall j, other :: 0 <= j < i ==> !OccursAt(path, j, other)
  }

  /** No key occurs anywhere in `path`. */
  ghost predicate NoOccurrence(path: string)
  {
    forall j, key :: !OccursAt(path, j, key)
  }

  /** End of the longest run of characters of class `cls` starting at `i`. */
  function RunEnd(s: string, i: nat, cls: CharClass): (j: nat)
    requires i <= |s|
    ensures i <= j <= |s|
    ensures forall k :: i <= k < j ==> InClass(s[k], cls)
    ensures j < |s| ==> !InClass(s[j], cls)
    decreases |s| - i
  {
    if i < |s| && InClass(s[i], cls) then RunEnd(s, i + 1, cls) else i
  }

  /** The run end is the only position with those two properties. */
  lemma RunEndUnique(s: string, i: nat, j: nat, cls: CharClass)
    requires i <= j <= |s|
    requires forall k :: i <= k < j ==> InClass(s[k], cls)
    requires j < |s| ==> !InClass(s[j], cls)
    ensures RunEnd(s, i, cls) == j
  {
  }

  /** The key that the pattern matches when the search is at position `i`. */
  function MatchAt(path: string, i: nat): (r: Option<IssueKey>)
    requires i <= |path|
    ensures r.Some? ==> OccursAt(path, i, r.value)
  {
    var a := i + |BrowseMarker|;
    if a <= |path| && path[i..a] == BrowseMarker then
      var b := RunEnd(path, a, Upper);
      if a < b && b < |path| && path[b] == '-' then
        var c := RunEnd(path, b + 1, Digit);
        if b + 1 < c then
          Some(IssueKey(path[a..b], path[b + 1..c]))
        else None
      else None
    else None
  }

  /** Conversely, an occurrence at `i` is exactly what the scanner finds
      there; in particular at most one key occurs at a position. */
  lemma MatchAtComplete(path: string, i: nat, key: IssueKey)
    requires i <= |path|
    requires OccursAt(path, i, key)
    ensures MatchAt(path, i) == Some(key)
  {
    var a := i + |BrowseMarker|;
    var b := a + |key.project|;
    var c := b + 1 + |key.number|;
    forall k | a <= k < b ensures InClass(path[k], Upper) {
      assert path[k] == key.project[k - a];
    }
    RunEndUnique(path, a, b, Upper);
    forall k | b + 1 <= k < c ensures InClass(path[k], Digit) {
      assert path[k] == key.number[k - b - 1];
    }
    RunEndUnique(path, b + 1, c, Digit);
  }

  /** A match found by a search starting at `i`: where it starts, and the key. */
  datatype Match = Match(pos: nat, key: IssueKey)

  /** The leftmost match starting at position `i` or later. */
  function FindFrom(path: string, i: nat): (r: Option<Match>)
    requires i <= |path|
    ensures r.Some? ==> i <= r.value.pos <= |path| && MatchAt(path, r.value.pos) == Some(r.value.key)
    ensures r.Some? ==> forall j :: i <= j < r.value.pos ==> MatchAt(path, j).None?
    ensures r.None? ==> forall j :: i <= j <= |path| ==> MatchAt(path, j).None?
    decreases |path| - i
  {
    match MatchAt(path, i)
    case Some(key) => Some(Match(i, key))
    case None => if i == |path| then None else FindFrom(path, i + 1)
  }

  /** `getIssueKey`: the key of the leftmost match in `path`, if any. */
  function GetIssueKey(path: string): (r: Option<string>)
    ensures r.None? <==> NoOccurrence(path)
    ensures r.Some? ==> exists i, key :: LeftmostAt(path, i, key) && r.value == key.ToString()
  {
    match FindFrom(path, 0)
    case Some(m) =>
      FoundIsLeftmost(path, m);
      Some(m.key.ToString())
    case None =>
      NotFoundMeansNone(path);
      None
  }

  lemma FoundIsLeftmost(path: string, m: Match)
    requires m.pos <= |path| && MatchAt(path, m.pos) == Some(m.key)
    requires forall j :: 0 <= j < m.pos ==> MatchAt(path, j).None?
    ensures LeftmostAt(path, m.pos, m.key)
  {
    forall j, other | 0 <= j < m.pos ensures !OccursAt(path, j, other) {
      if OccursAt(path, j, other) {
        MatchAtComplete(path, j, other);
      }
    }
  }

  lemma NotFoundMeansNone(path: string)
    requires forall j :: 0 <= j <= |path| ==> MatchAt(path, j).None?
    ensures NoOccurrence(path)
  {
    forall j, key ensures !OccursAt(path, j, key) {
      if OccursAt(path, j, key) {
        MatchAtComplete(path, j, key);
      }
    }
  }

  /** Only one leftmost occurrence exists, so the contract of `GetIssueKey`
      determines its result. */
  lemma LeftmostUnique(path: string, i1: int, k1: IssueKey, i2: int, k2: IssueKey)
    requires LeftmostAt(path, i1, k1) && LeftmostAt(path, i2, k2)
    ensures i1 == i2 && k1 == k2
  {
    assert !(i1 < i2) && !(i2 < i1);
    MatchAtComplete(path, i1, k1);
    MatchAtComplete(path, i1, k2);
  }

  /** The result is the key of the leftmost occurrence. */
  lemma GetIssueKeyLeftmost(path: string, i: int, key: IssueKey)
    requires LeftmostAt(path, i, key)
    ensures GetIssueKey(path) == Some(key.ToString())
  {
    var r := GetIssueKey(path);
    assert r.Some?;
    var i', key' :| LeftmostAt(path, i', key') && r.value == key'.ToString();
    LeftmostUnique(path, i, key, i', key');
  }

  /** A page path `/browse/{key}` followed by anything that does not
      continue the digits yields the key. */
  lemma BrowsePathYieldsKey(key: IssueKey, rest: string)
    requires key.Valid()
    requires rest == [] || !IsDigit(rest[0])
    ensures GetIssueKey(BrowsePath(key.ToString()) + rest) == Some(key.ToString())
  {
    var path := BrowsePath(key.ToString()) + rest;
    var end := |BrowseMarker| + |key.ToString()|;
    assert path[0..end] == BrowseMarker + key.ToString();
    assert end < |path| ==> path[end] == rest[0];
    assert LeftmostAt(path, 0, key);
    GetIssueKeyLeftmost(path, 0, key);
  }

  /** Round trip with the page paths the application links to: reading the
      key back from `/browse/{s}` gives `s` exactly when `s` is a
      well-formed key. */
  lemma BrowsePathRoundTrip(s: string)
    ensures GetIssueKey(BrowsePath(s)) == Some(s) <==> IsKeyText(s)
  {
    if IsKeyText(s) {
      var key: IssueKey :| key.Valid() && key.ToString() == s;
      BrowsePathYieldsKey(key, []);
      assert BrowsePath(s) + [] == BrowsePath(s);
    }
  }

  /** Trailing characters after the digits are ignored. */
  lemma TrailingIgnoredExample()
    ensures GetIssueKey("/browse/ABC-123x") == Some("ABC-123")
  {
    var key := IssueKey("ABC", "123");
    assert key.Valid() && key.ToString() == "ABC-123";
    assert OccursAt("/browse/ABC-123x", 0, key);
    GetIssueKeyLeftmost("/browse/ABC-123x", 0, key);
  }

  /** The match is case sensitive: a lower-case project gives nothing. */
  lemma LowerCaseExample()
    ensures GetIssueKey("/browse/abc-1") == None
  {
  }
}

=== FILE: issue_types.dfy ===
/** Choice of the issue type of a ticket created in the tracker
    (app.py, `create_jira_ticket`, lines 103-118). The list of types the
    project offers is an input: fetching it is a network call that yields the
    empty list on any failure (app.py:55-67). */
module IssueTypes {
  import opened Options

  /** Type names tried, in this order, against the project's types. */
  const PreferredTypes: seq<string> := ["Test", "Story", "Task", "Bug", "Sub-task"]

  /** Type used when none of the preferred names is offered. */
  const DefaultType: string := "Story"

  /** Reference definition: `t` is the first preferred name the project
      offers, or the default when it offers none of them. */
  ghost predicate ChosenByPreference(t: string, available: seq<string>)
  {
    || (exists i :: 0 <= i < |PreferredTypes| && PreferredTypes[i] == t && t in available
                    && forall j :: 0 <= j < i ==> PreferredTypes[j] !in available)
    || (t == DefaultType && forall j :: 0 <= j < |PreferredTypes| ==> PreferredTypes[j] !in available)
  }

  /** Index of the first of `prefs[from..]` that occurs in `available`. */
  function FirstOffered(prefs: seq<string>, available: seq<string>, from: nat): (r: Option<nat>)
    requires from <= |prefs|
    ensures r.Some? ==> from <= r.value < |prefs| && prefs[r.value] in available
    ensures r.Some? ==> forall j :: from <= j < r.value ==> prefs[j] !in available
    ensures r.None? ==> forall j :: from <= j < |prefs| ==> prefs[j] !in available
    decreases |prefs| - from
  {
    if from == |prefs| then None
    else if prefs[from] in available then Some(from)
    else FirstOffered(prefs, available, from + 1)
  }

  /** The issue type given to a new ticket: the explicit type when it is
      truthy (the available list is then not looked at), else the first
      preferred name offered, else "Story". */
  function ResolveIssueType(explicit: Option<string>, available: seq<string>): (t: string)
    ensures Truthy(explicit) ==> t == explicit.value
    ensures !Truthy(explicit) ==> ChosenByPreference(t, available)
    ensures !Truthy(explicit) ==> t in PreferredTypes
    ensures !Truthy(explicit) && available == [] ==> t == DefaultType
  {
    if Truthy(explicit) then explicit.value
    else if available == [] then DefaultType
    else
      match FirstOffered(PreferredTypes, available, 0)
      case Some(i) => PreferredTypes[i]
      case None => DefaultType
  }

  /** The reference definition picks exactly one name, so the contract of
      `ResolveIssueType` determines its result. */
  lemma ChosenByPreferenceUnique(t1: string, t2: string, available: seq<string>)
    requires ChosenByPreference(t1, available) && ChosenByPreference(t2, available)
    ensures t1 == t2
  {
  }

  /** Without an explicit type, the outcome is exactly what the reference
      definition selects. */
  lemma ResolveMatchesPreference(explicit: Option<string>, available: seq<string>, t: string)
    requires !Truthy(explicit)
    ensures ResolveIssueType(explicit, available) == t <==> ChosenByPreference(t, available)
  {
    if ChosenByPreference(t, available) {
      ChosenByPreferenceUnique(t, ResolveIssueType(explicit, available), available);
    }
  }

  /** The guard `if issue_types:` (app.py:112) changes nothing: scanning the
      preferences over an empty list also finds nothing, leaving "Story". */
  lemma EmptyGuardRedundant()
    ensures FirstOffered(PreferredTypes, [], 0).None?
  {
  }

  /** Offering an extra type outside the preferred list never changes the
      chosen type. */
  lemma NonPreferredTypeIgnored(explicit: Option<string>, available: seq<string>, extra: string)
    requires extra !in PreferredTypes
    ensures ResolveIssueType(explicit, available + [extra]) == ResolveIssueType(explicit, available)
  {
    if !Truthy(explicit) {
      var t := ResolveIssueType(explicit, available);
      forall s | s in PreferredTypes
        ensures s in available + [extra] <==> s in available
      {
        assert s != extra;
      }
      assert ChosenByPreference(t, available + [extra]);
      ResolveMatchesPreference(explicit, available + [extra], t);
    }
  }

  /** Sample inputs: ["Bug","Task"] gives "Task", an empty list (what a
      failed fetch of the types returns) gives "Story", an empty explicit
      type is ignored, and a truthy explicit type wins. */
  lemma ResolveExamples()
    ensures ResolveIssueType(None, ["Bug", "Task"]) == "Task"
    ensures ResolveIssueType(None, []) == "Story"
    ensures ResolveIssueType(Some(""), ["Epic"]) == "Story"
    ensures ResolveIssueType(None, ["Sub-task", "Story", "Test"]) == "Test"
    ensures ResolveIssueType(Some("Epic"), ["Bug"]) == "Epic"
  {
  }
}

=== FILE: links.dfy ===
/** The URLs that connect the tracker and the application: the panel link
    opened from an issue page (qalilab-jira-extension/content.js:27 and :55,
    and the same link in app.py:76) and the issue page the panel returns to
    (app.py:227). */
module Links {
  import opened Options
  import opened Strings
  import opened IssueKeys

  /** Fixed beginning of every panel link; the issue key follows it. */
  const PanelLinkPrefix: string := "https://qalilab-ai.onrender.com/jira-panel?issueKey="

  /** The panel link for an issue key: the prefix and the key, with no
      encoding of the key. */
  function PanelLink(issueKey: string): (url: string)
    ensures StartsWith(url, PanelLinkPrefix)
    ensures |url| == |PanelLinkPrefix| + |issueKey|
    ensures url[|PanelLinkPrefix|..] == issueKey
  {
    PanelLinkPrefix + issueKey
  }

  /** Specification inverse of `PanelLink`: what follows the prefix, or
      `None` for any other URL. This is not the server's query-string
      decoding of the key. */
  function ParsePanelLink(url: string): (r: Option<string>)
    ensures r.Some? <==> StartsWith(url, PanelLinkPrefix)
  {
    if StartsWith(url, PanelLinkPrefix) then Some(url[|PanelLinkPrefix|..]) else None
  }

  /** Reading the key back from a panel link gives the key it was built from. */
  lemma PanelLinkRoundTrip(issueKey: string)
    ensures ParsePanelLink(PanelLink(issueKey)) == Some(issueKey)
  {
  }

  /** Every URL that parses as a panel link is the link of the key read from it. */
  lemma ParsedPanelLinkRebuilds(url: string)
    requires ParsePanelLink(url).Some?
    ensures PanelLink(ParsePanelLink(url).value) == url
  {
    assert url == url[..|PanelLinkPrefix|] + url[|PanelLinkPrefix|..];
  }

  /** Panel links of different keys differ. */
  lemma PanelLinkInjective(k1: string, k2: string)
    requires PanelLink(k1) == PanelLink(k2)
    ensures k1 == k2
  {
    PanelLinkRoundTrip(k1);
    PanelLinkRoundTrip(k2);
  }

  /** `https://{base}/browse/{key}`: the tracker page of an issue. */
  function ReturnUrl(baseUrl: string, issueKey: string): (url: string)
    ensures StartsWith(url, "https://" + baseUrl)
    ensures EndsWith(url, BrowsePath(issueKey))
    ensures url[|"https://" + baseUrl|..] == BrowsePath(issueKey)
  {
    var host := "https://" + baseUrl;
    EndsWithConcat(host, BrowsePath(issueKey));
    host + BrowsePath(issueKey)
  }

  /** The path of the return URL, the part after `https://{base}`, is the
      issue page from which the extension reads back exactly the key the URL
      was built from, when that key is well formed. */
  lemma ReturnUrlRoundTrip(baseUrl: string, issueKey: string)
    requires IsKeyText(issueKey)
    ensures GetIssueKey(ReturnUrl(baseUrl, issueKey)[|"https://" + baseUrl|..]) == Some(issueKey)
  {
    BrowsePathRoundTrip(issueKey);
  }
}

=== FILE: options.dfy ===
/** Optional values, and the truthiness Python gives to an optional string. */
module Options {

  /** A value that may be absent (Python's `None`, JavaScript's `null`). */
  datatype Option<+T> = None | Some(value: T)

  /** Python's `bool(x)` for `x` either `None` or a `str`:
      `None` and the empty string are falsy, every other string is truthy. */
  predicate Truthy(x: Option<string>)
  {
    x.Some? && x.value != ""
  }
}

=== FILE: prompts.dfy ===
/** The instruction sent to the text-generation endpoint
    (app.py, `build_prompt`, lines 38-53). */
module Prompts {
  import opened Strings

  /** Text placed before the story. */
  const StoryOpening: string := "Voici une user story : \""
  /** Text placed right after the story. */
  const StoryClosing: string := "\"\n"
  /** Wording asking for a Given/When/Then scenario. */
  const GherkinRequest: string :=
    "En tant qu'assistant de test, génère un scénario de test au format Gherkin (Given/When/Then)"
  /** Wording asking for a list of actions and expected results. */
  const ActionsRequest: string :=
    "En tant qu'assistant de test, génère un cas de test détaillant les actions à effectuer et les résultats attendus pour chaque action,"

  const French: string := "français"
  const English: string := "anglais"

  /** Language selector used by `build_prompt` when the caller gives none. */
  const DefaultLanguage: string := "fr"

  /** The language named in the prompt for a language selector. */
  function LanguageWord(languageChoice: string): (w: string)
    ensures w == French <==> languageChoice == "fr"
    ensures w == English <==> languageChoice != "fr"
  {
    if languageChoice == "fr" then French else English
  }

  /** The request wording for a format selector. */
  function Request(formatChoice: string): string
  {
    if formatChoice == "gherkin" then GherkinRequest else ActionsRequest
  }

  /** The closing words naming the language. */
  function LanguageClause(languageChoice: string): string
  {
    " en " + LanguageWord(languageChoice) + "."
  }

  /** The instruction that follows the quoted story. */
  function Instruction(formatChoice: string, languageChoice: string): string
  {
    Request(formatChoice) + LanguageClause(languageChoice)
  }

  /** Everything that follows the story in a prompt. */
  function Tail(formatChoice: string, languageChoice: string): string
  {
    StoryClosing + Instruction(formatChoice, languageChoice)
  }

  /** The prompt for a story, a format selector and a language selector. */
  function BuildPrompt(story: string, formatChoice: string, languageChoice: string): (p: string)
    ensures StartsWith(p, StoryOpening + story + StoryClosing)
    ensures EndsWith(p, Instruction(formatChoice, languageChoice))
    ensures |p| == |StoryOpening| + |story| + |Tail(formatChoice, languageChoice)|
  {
    var instruction := Instruction(formatChoice, languageChoice);
    StartsWithConcat(StoryOpening + story + StoryClosing, instruction);
    EndsWithConcat(StoryOpening + story + StoryClosing, instruction);
    StoryOpening + story + Tail(formatChoice, languageChoice)
  }

  /** Inverse of `BuildPrompt` for known selectors: the story embedded in a
      prompt, if `p` has the shape of one. */
  function ExtractStory(p: string, formatChoice: string, languageChoice: string): (story: string)
    requires StartsWith(p, StoryOpening)
    requires EndsWith(p, Tail(formatChoice, languageChoice))
    requires |StoryOpening| + |Tail(formatChoice, languageChoice)| <= |p|
  {
    p[|StoryOpening| .. |p| - |Tail(formatChoice, languageChoice)|]
  }

  /** The story is embedded verbatim: it can be read back from the prompt. */
  lemma StoryRoundTrip(story: string, formatChoice: string, languageChoice: string)
    ensures var p := BuildPrompt(story, formatChoice, languageChoice);
            && StartsWith(p, StoryOpening)
            && EndsWith(p, Tail(formatChoice, languageChoice))
            && |StoryOpening| + |Tail(formatChoice, languageChoice)| <= |p|
            && ExtractStory(p, formatChoice, languageChoice) == story
  {
    Sandwich(StoryOpening, story, Tail(formatChoice, languageChoice));
  }

  /** Conversely, a prompt-shaped string is the prompt of the story read
      back from it. */
  lemma ExtractThenBuild(p: string, formatChoice: string, languageChoice: string)
    requires StartsWith(p, StoryOpening)
    requires EndsWith(p, Tail(formatChoice, languageChoice))
    requires |StoryOpening| + |Tail(formatChoice, languageChoice)| <= |p|
    ensures BuildPrompt(ExtractStory(p, formatChoice, languageChoice), formatChoice, languageChoice) == p
  {
    var t := Tail(formatChoice, languageChoice);
    var s := ExtractStory(p, formatChoice, languageChoice);
    assert p == p[..|StoryOpening|] + s + p[|p| - |t|..];
  }

  /** Different stories give different prompts. */
  lemma BuildPromptInjective(s1: string, s2: string, formatChoice: string, languageChoice: string)
    requires BuildPrompt(s1, formatChoice, languageChoice) == BuildPrompt(s2, formatChoice, languageChoice)
    ensures s1 == s2
  {
    StoryRoundTrip(s1, formatChoice, languageChoice);
    StoryRoundTrip(s2, formatChoice, languageChoice);
  }

  /** The two wordings differ in their last character. */
  lemma RequestsDiffer()
    ensures |GherkinRequest| > 0 && |ActionsRequest| > 0
    ensures GherkinRequest[|GherkinRequest| - 1] != ActionsRequest[|ActionsRequest| - 1]
  {
  }

  /** The Given/When/Then wording closes the prompt exactly when the format
      selector is "gherkin"; every other value gets the actions wording. */
  lemma GherkinExactly(story: string, formatChoice: string, languageChoice: string)
    ensures var p := BuildPrompt(story, formatChoice, languageChoice);
            var lang := LanguageClause(languageChoice);
            && (EndsWith(p, GherkinRequest + lang) <==> formatChoice == "gherkin")
            && (EndsWith(p, ActionsRequest + lang) <==> formatChoice != "gherkin")
  {
    RequestsDiffer();
    NotBothSuffixes(BuildPrompt(story, formatChoice, languageChoice),
                    GherkinRequest, ActionsRequest, LanguageClause(languageChoice));
  }

  /** The two language clauses cannot end the same string. */
  lemma LanguageClausesDiffer()
    ensures |" en " + English + "."| <= |" en " + French + "."|
    ensures !EndsWith(" en " + French + ".", " en " + English + ".")
  {
    assert (" en " + French + ".")[1] != (" en " + English + ".")[0];
  }

  /** The prompt names "français" exactly when the language selector is
      "fr", and "anglais" otherwise. */
  lemma LanguageExactly(story: string, formatChoice: string, languageChoice: string)
    ensures var p := BuildPrompt(story, formatChoice, languageChoice);
            && (EndsWith(p, " en " + French + ".") <==> languageChoice == "fr")
            && (EndsWith(p, " en " + English + ".") <==> languageChoice != "fr")
  {
    var p := BuildPrompt(story, formatChoice, languageChoice);
    var lang := LanguageClause(languageChoice);
    EndsWithConcat(Request(formatChoice), lang);
    EndsWithTransitive(p, Instruction(formatChoice, languageChoice), lang);
    LanguageClausesDiffer();
    NotBothEndings(p, " en " + French + ".", " en " + English + ".");
  }
}

=== FILE: strings.dfy ===
/** Prefix and suffix relations on strings. */
module Strings {

  /** `t` is a prefix of `s`. */
  predicate StartsWith(s: string, t: string)
  {
    |t| <= |s| && s[..|t|] == t
  }

  /** `t` is a suffix of `s`. */
  predicate EndsWith(s: string, t: string)
  {
    |t| <= |s| && s[|s| - |t|..] == t
  }

  /** The left operand of a concatenation begins it. */
  lemma StartsWithConcat(a: string, b: string)
    ensures StartsWith(a + b, a)
  {
    assert (a + b)[..|a|] == a;
  }

  /** The right operand of a concatenation ends it. */
  lemma EndsWithConcat(a: string, b: string)
    ensures EndsWith(a + b, b)
  {
    assert (a + b)[|a|..] == b;
  }

  /** A suffix of a suffix is a suffix. */
  lemma EndsWithTransitive(s: string, t: string, u: string)
    requires EndsWith(s, t) && EndsWith(t, u)
    ensures EndsWith(s, u)
  {
    assert s[|s| - |u|..] == s[|s| - |t|..][|t| - |u|..];
  }

  /** Two suffixes of one string are suffixes of each other: the shorter one
      ends the longer one. */
  lemma SuffixOfSuffix(s: string, t: string, u: string)
    requires EndsWith(s, t) && EndsWith(s, u) && |u| <= |t|
    ensures EndsWith(t, u)
  {
    assert t[|t| - |u|..] == s[|s| - |u|..];
  }

  /** A string between a known beginning and a known ending can be read
      back by position. */
  lemma Sandwich(a: string, m: string, b: string)
    ensures StartsWith(a + m + b, a) && EndsWith(a + m + b, b)
    ensures (a + m + b)[|a| .. |a + m + b| - |b|] == m
  {
    var s := a + m + b;
    assert s[..|a|] == a;
    assert s[|s| - |b|..] == b;
  }

  /** When `u` does not end `t`, a string ending with `t` does not end with
      `u`, and a string ending with `u` does not end with `t`. */
  lemma NotBothEndings(s: string, t: string, u: string)
    requires |u| <= |t| && !EndsWith(t, u)
    ensures !(EndsWith(s, t) && EndsWith(s, u))
  {
    if EndsWith(s, t) && EndsWith(s, u) {
      SuffixOfSuffix(s, t, u);
    }
  }

  /** Two strings that agree on a common ending `w` but differ just before
      it cannot both end the same string. */
  lemma NotBothSuffixes(s: string, x: string, y: string, w: string)
    requires |x| > 0 && |y| > 0 && x[|x| - 1] != y[|y| - 1]
    ensures !(EndsWith(s, x + w) && EndsWith(s, y + w))
  {
    if EndsWith(s, x + w) {
      var k := |s| - |w| - 1;
      assert s[k] == (x + w)[|x| - 1] == x[|x| - 1];
      assert (y + w)[|y| - 1] == y[|y| - 1];
    }

  }
}
